=== FILE: README.md ===
# ActivityProvider — a Dafny model

This project models `ActivityProvider`, the Android activity hub of the
ApplicationProvider library. It is written in Dafny, and every contract in it
is checked by the Dafny verifier.

The hub has the following parts:

- Six listener registries, one per lifecycle phase (CREATE, START, RESUME,
  PAUSE, STOP, DESTROY). Each has `addXListener`/`removeXListener`.
- `pingXListeners`. The platform's lifecycle callbacks reach the hub through
  `LastActivityProvider`, which calls it. Each ping does three things:
  - it records the event in the `_activitiesState` state flow;
  - for CREATE and RESUME, it makes the activity the current one through
    `offerIfDiffer`;
  - it calls every listener registered for that phase.
- The `currentActivity` getter. It reads the weak reference held in
  `_currentActivity`.
- The `listenX()` flows. Each one registers a fresh listener while it is being
  collected and removes that listener when collection ends.
- `listenActivityChanged()`. It is the state history, filtered to RESUME
  events, with an event dropped when its activity name repeats the previous
  one.

## How the model is built

- `LifecycleTypes` holds the values:
  - phases;
  - activities (`Screen`). Dafny equality stands for `equals`, taken to be
    object identity, and `text` stands for `toString()`;
  - listeners;
  - weak references;
  - the recorded `ActivityAndState` event.

  The garbage collector's state is a parameter: the set of activities it has
  reclaimed. `WeakReference.get()` returns `null` exactly for those.
- `ListenerQueue` models `remove` on one `ConcurrentLinkedQueue` used
  sequentially: it deletes the first equal element, if there is one. The
  other two queue operations live in `ActivityProvider`:
  - `add` appends (`AddListener`);
  - `forEach` runs from head to tail (`FanOut`).
- `ActivityProvider` models the hub as an immutable state. There are six
  queues and two cells, and each operation is a pure function.
  - The six near-identical `add`/`remove`/`ping`/`listen` families are one
    function each, with the phase as a parameter.
  - A ping returns the listener calls it makes, in order. Each call records
    what that listener would read from the hub at that moment: the current
    activity and the last event.
- `ProviderTrace` applies a sequence of steps to the hub and keeps what was
  observed after each step. A step is an add, a remove, a ping, or the
  collector reclaiming an activity.
  - The `_activitiesState` flow is the list of values a collector receives:
    the value it finds, then one value per ping.
  - `ActivityAndState` does not override `equals`, so the state flow never
    treats a ping's value as a repeat.
- `Flows` models the two flow operators over such lists: `filter` and
  `distinctUntilChangedBy`.
- `ActivityChanged` models `listenActivityChanged()`.
- `LifecycleBridge` maps each callback of `LastActivityProvider` to the ping it
  makes.
- `Scenarios` gives concrete runs, stated for any activities and listeners
  that fit them.

## Behaviour of the code worth knowing

- **The current activity moves to B at CREATE(B).** Take the sequence
  CREATE(A), START(A), RESUME(A), PAUSE(A), CREATE(B), RESUME(B). The current
  activity after each step is A, A, A, A, B, B, because
  `pingCreatedListeners` calls `offerIfDiffer` (ActivityProvider.kt
  line 150). See `Scenarios.TwoActivityLifecycle`.
- **Listeners are called in registration order.** `forEach` on a
  `ConcurrentLinkedQueue` runs from head to tail (ActivityProvider.kt lines
  137-139 and the five other pings).
- **Listener failures are not isolated.** The `forEach` loops in lines 134-176
  have no try/catch, so a listener that throws ends the ping and the
  listeners after it are not called. The model does not claim otherwise.

## Model

| member | source | states |
|---|---|---|
| LifecycleTypes.Get | applicationprovider/src/main/java/com/github/florent37/application/provider/ActivityProvider.kt:190-192 | A weak reference resolves to its referent exactly when there is one and the collector has not reclaimed it, and to null otherwise |
| LifecycleTypes.Record | applicationprovider/src/main/java/com/github/florent37/application/provider/ActivityProvider.kt:52-58 | The event captures the activity's `toString()` as its name and keeps the phase. Its weak reference resolves to that activity until the activity is reclaimed |
| ListenerQueue.RemoveFirst | applicationprovider/src/main/java/com/github/florent37/application/provider/ActivityProvider.kt:79-82 | `remove` leaves a queue without the element unchanged, and removes exactly one element from a queue that holds it |
| ListenerQueue.RemoveFirstSplits | applicationprovider/src/main/java/com/github/florent37/application/provider/ActivityProvider.kt:79-82 | `remove` deletes exactly the first occurrence. The elements before it and after it, including later copies of the same listener, stay in order |
| ListenerQueue.RemoveFirstCount | applicationprovider/src/main/java/com/github/florent37/application/provider/ActivityProvider.kt:79-82 | As multisets, `remove` takes away one copy of the element if there is one, and nothing else |
| ListenerQueue.RemoveAfterAppend | applicationprovider/src/main/java/com/github/florent37/application/provider/ActivityProvider.kt:74-82 | Appending an element that was absent and then removing it restores the queue |
| ActivityProvider.AddListener | applicationprovider/src/main/java/com/github/florent37/application/provider/ActivityProvider.kt:74-132 | `addXListener` appends the listener to its phase's queue even when it is already there. Both cells and the other five queues are untouched |
| ActivityProvider.AddListenerCount | applicationprovider/src/main/java/com/github/florent37/application/provider/ActivityProvider.kt:74-77 | A duplicate registration is kept: the listener's count in the queue rises by one |
| ActivityProvider.RemoveListener | applicationprovider/src/main/java/com/github/florent37/application/provider/ActivityProvider.kt:74-132 | `removeXListener` does nothing when the listener is absent and otherwise shortens its phase's queue by exactly one. Both cells and the other five queues are untouched |
| ActivityProvider.RemoveListenerDeletesFirst | applicationprovider/src/main/java/com/github/florent37/application/provider/ActivityProvider.kt:79-82 | `removeXListener` deletes the first registration only. The rest of the queue keeps its order, and the listener's count drops by one |
| ActivityProvider.AddThenRemoveRestores | applicationprovider/src/main/java/com/github/florent37/application/provider/ActivityProvider.kt:74-82 | Adding and then removing a listener that was not registered restores the whole provider |
| ActivityProvider.CurrentActivity | applicationprovider/src/main/java/com/github/florent37/application/provider/ActivityProvider.kt:185-192 | The getter returns the activity held by the weak reference in `_currentActivity` unless it was reclaimed |
| ActivityProvider.InitiallyEmpty | applicationprovider/src/main/java/com/github/florent37/application/provider/ActivityProvider.kt:62-195 | Before any ping there is no current activity, the event cell is null, and every queue is empty |
| ActivityProvider.OfferIfDiffer | applicationprovider/src/main/java/com/github/florent37/application/provider/ActivityProvider.kt:178-183 | Afterwards a live activity is current. Nothing is written when it already was current. Otherwise a new reference to it is stored. The queues and the event cell are untouched |
| ActivityProvider.OfferIfDifferIdempotent | applicationprovider/src/main/java/com/github/florent37/application/provider/ActivityProvider.kt:178-183 | Offering the same activity twice is the same as offering it once |
| ActivityProvider.Emit | applicationprovider/src/main/java/com/github/florent37/application/provider/ActivityProvider.kt:143 | Writing to the state flow replaces the last event with the new one and touches nothing else |
| ActivityProvider.FanOut | applicationprovider/src/main/java/com/github/florent37/application/provider/ActivityProvider.kt:137-139 | `forEach` makes one call per registration, head to tail. Every call is the phase's own callback with the pinged activity |
| ActivityProvider.Ping | applicationprovider/src/main/java/com/github/florent37/application/provider/ActivityProvider.kt:134-176 | A ping always overwrites the event cell and never changes a queue. CREATE and RESUME make a live activity current, writing only if it was not current already. The other four phases leave the current cell alone. The calls go to exactly the phase's listeners, in queue order, and each listener already sees the updated cells |
| ActivityProvider.PingStoresRef | applicationprovider/src/main/java/com/github/florent37/application/provider/ActivityProvider.kt:134-155 | A CREATE or RESUME ping leaves `_currentActivity` referring to the pinged activity, whether or not it has been reclaimed: `offerIfDiffer` (lines 178-183) either stores a new reference to it or finds one already there |
| ActivityProvider.PingCallsPerRegistration | applicationprovider/src/main/java/com/github/florent37/application/provider/ActivityProvider.kt:134-176 | A listener receives as many calls as it has registrations for the pinged phase. A listener not registered there receives none |
| ActivityProvider.OfferAndEmitCommute | applicationprovider/src/main/java/com/github/florent37/application/provider/ActivityProvider.kt:134-155 | The CREATE order (offer, then record) and the RESUME order (record, then offer) reach the same state |
| ActivityProvider.FreshListener | applicationprovider/src/main/java/com/github/florent37/application/provider/ActivityProvider.kt:198-204 | The listener object a `listenX()` collection creates is registered in no queue |
| ActivityProvider.Listen | applicationprovider/src/main/java/com/github/florent37/application/provider/ActivityProvider.kt:198-269 | Collecting `listenX()` appends one fresh listener to the phase's queue and changes nothing else |
| ActivityProvider.Close | applicationprovider/src/main/java/com/github/florent37/application/provider/ActivityProvider.kt:198-269 | Ending the collection removes one registration of the subscription's listener from its own queue, if it has one. The other queues and both cells are unchanged |
| ActivityProvider.CloseDeletesFirst | applicationprovider/src/main/java/com/github/florent37/application/provider/ActivityProvider.kt:198-269 | Closing takes out exactly the first registration of the subscription's listener. The listeners before and after it keep their order, so later pings still call them in registration order |
| ActivityProvider.ListenThenCloseRestores | applicationprovider/src/main/java/com/github/florent37/application/provider/ActivityProvider.kt:198-208 | Subscribing and then closing restores the provider exactly |
| ActivityProvider.ListenOpens | applicationprovider/src/main/java/com/github/florent37/application/provider/ActivityProvider.kt:198-208 | A new subscription's listener is registered exactly once, in its own phase, and nowhere else |
| ActivityProvider.OpenSubscriptionReceivesItsPhase | applicationprovider/src/main/java/com/github/florent37/application/provider/ActivityProvider.kt:198-208 | An open subscription receives exactly one call per ping of its phase and no call for any other phase |
| ActivityProvider.AddKeepsOpen | applicationprovider/src/main/java/com/github/florent37/application/provider/ActivityProvider.kt:74-132 | Adding any other listener to any queue keeps a subscription open |
| ActivityProvider.RemoveKeepsOpen | applicationprovider/src/main/java/com/github/florent37/application/provider/ActivityProvider.kt:74-132 | Removing any other listener from any queue keeps a subscription open |
| ActivityProvider.ListenKeepsOpen | applicationprovider/src/main/java/com/github/florent37/application/provider/ActivityProvider.kt:198-269 | Another collection starting keeps a subscription open |
| ActivityProvider.CloseUnregisters | applicationprovider/src/main/java/com/github/florent37/application/provider/ActivityProvider.kt:198-208 | Closing an open subscription removes its single registration and leaves it registered nowhere, so later pings of any phase never call it |
| Flows.Filter | applicationprovider/src/main/java/com/github/florent37/application/provider/ActivityProvider.kt:273 | `filter` passes on only kept values, passes on every kept value, and preserves order (its output is a subsequence of its input) |
| Flows.FilterAppend | applicationprovider/src/main/java/com/github/florent37/application/provider/ActivityProvider.kt:273 | When one more value arrives, `filter` emits it exactly when it is kept |
| Flows.FilterOfKept | applicationprovider/src/main/java/com/github/florent37/application/provider/ActivityProvider.kt:273 | Filtering a stream whose every value is kept changes nothing |
| Flows.DistinctFrom | applicationprovider/src/main/java/com/github/florent37/application/provider/ActivityProvider.kt:274 | `distinctUntilChangedBy`, started from a remembered key, emits a subsequence of its input. The first emitted value does not repeat the remembered key, and no two neighbouring outputs share a key |
| Flows.DistinctUntilChangedBy | applicationprovider/src/main/java/com/github/florent37/application/provider/ActivityProvider.kt:274 | On a fresh collection, the output is a subsequence of the input with no two neighbouring values sharing a key |
| Flows.DistinctFromAppend | applicationprovider/src/main/java/com/github/florent37/application/provider/ActivityProvider.kt:274 | When one more value arrives, it is emitted exactly when its key differs from the key of the last upstream value, or from the starting key if there was none |
| Flows.DistinctFromKeepsLastKey | applicationprovider/src/main/java/com/github/florent37/application/provider/ActivityProvider.kt:274 | The last value passed on has the key of the last value received |
| Flows.DistinctFromOfDistinct | applicationprovider/src/main/java/com/github/florent37/application/provider/ActivityProvider.kt:274 | A stream with no repeated neighbouring keys, which does not start with the remembered key, passes through unchanged |
| ActivityChanged.ListenActivityChanged | applicationprovider/src/main/java/com/github/florent37/application/provider/ActivityProvider.kt:272-274 | The output is a subsequence of the state history. Every output is a non-null RESUME event, and no two neighbouring outputs share an activity name |
| ActivityChanged.FilteredLastKey | applicationprovider/src/main/java/com/github/florent37/application/provider/ActivityProvider.kt:272-274 | The key `distinctUntilChangedBy` remembers is the name of the last RESUME in the history |
| ActivityChanged.ListenActivityChangedStep | applicationprovider/src/main/java/com/github/florent37/application/provider/ActivityProvider.kt:272-274 | When one more event is recorded, the collector receives it exactly when it is a RESUME whose name differs from the last RESUME's name, and nothing otherwise |
| ActivityChanged.ListenActivityChangedFrom | applicationprovider/src/main/java/com/github/florent37/application/provider/ActivityProvider.kt:272-274 | The same step, stated from a known output and a known last resumed name, which it also advances |
| ActivityChanged.ListenActivityChangedEndsWithLatest | applicationprovider/src/main/java/com/github/florent37/application/provider/ActivityProvider.kt:272-274 | Once any RESUME was recorded, the last value received names the activity of the last RESUME |
| ActivityChanged.ListenActivityChangedIdempotent | applicationprovider/src/main/java/com/github/florent37/application/provider/ActivityProvider.kt:272-274 | Applying the pipeline to its own output changes nothing |
| ProviderTrace.Extend | applicationprovider/src/main/java/com/github/florent37/application/provider/ActivityProvider.kt:74-196 | One step keeps every earlier entry of the current-activity log and appends the current activity after the step. A ping writes exactly its event to the flow and to the cell; any other step writes nothing. Only a ping calls listeners. Only a collection changes the reclaimed set: it adds exactly its activity and leaves the provider alone |
| ProviderTrace.ClientStep | applicationprovider/src/main/java/com/github/florent37/application/provider/ActivityProvider.kt:74-132 | An add or remove step goes through `AddListener` or `RemoveListener` on the provider reached so far. It calls no listener, writes nothing, collects nothing and leaves the current activity where it was |
| ProviderTrace.Run | applicationprovider/src/main/java/com/github/florent37/application/provider/ActivityProvider.kt:195-196 | Over a run, the flow receives one value per ping. The event cell holds the last value written, or its starting value when there was no ping |
| ProviderTrace.RunPingStep | applicationprovider/src/main/java/com/github/florent37/application/provider/ActivityProvider.kt:134-176 | A ping at the end of a run goes through the ping of the provider reached so far, and its calls follow the earlier calls |
| ProviderTrace.History | applicationprovider/src/main/java/com/github/florent37/application/provider/ActivityProvider.kt:195-196 | A collector of `listenActivitiesState` receives the value it finds first, then each written event in order |
| ProviderTrace.CellHoldsLastDelivered | applicationprovider/src/main/java/com/github/florent37/application/provider/ActivityProvider.kt:195-196 | The event cell always equals the last value its collector has received |
| ProviderTrace.HistoryAtStep | applicationprovider/src/main/java/com/github/florent37/application/provider/ActivityProvider.kt:195-196 | Each ping adds exactly its event to the history. Adds, removes and collections add nothing |
| ProviderTrace.ActivityChangedAtStep | applicationprovider/src/main/java/com/github/florent37/application/provider/ActivityProvider.kt:272-274 | During a run, a collector of `listenActivityChanged()` receives the pinged event exactly at a RESUME ping whose activity name differs from the last resumed name |
| ProviderTrace.CurrentAfterPing | applicationprovider/src/main/java/com/github/florent37/application/provider/ActivityProvider.kt:134-183 | After a CREATE or RESUME ping of a live activity, that activity is current. After any other ping the current activity is unchanged |
| ProviderTrace.CurrentAfterCollect | applicationprovider/src/main/java/com/github/florent37/application/provider/ActivityProvider.kt:190-192 | Once the collector reclaims the current activity, the getter returns null |
| ProviderTrace.RunWritesPinged | applicationprovider/src/main/java/com/github/florent37/application/provider/ActivityProvider.kt:134-176 | Whatever the steps, a run writes exactly the events of its pings, in order: the reference definition `Pinged` |
| ProviderTrace.PingedOfPings | applicationprovider/src/main/java/com/github/florent37/application/provider/ActivityProvider.kt:134-176 | When every step is a ping, the i-th value written is the i-th ping's event |
| ProviderTrace.RunStoredRef | applicationprovider/src/main/java/com/github/florent37/application/provider/ActivityProvider.kt:74-192 | For every run, including ones where the collector reclaims activities, `_currentActivity` refers to the activity of the last CREATE or RESUME ping, or keeps its starting reference when there was none. The getter resolves that reference against what has been reclaimed |
| ProviderTrace.LiveStep | applicationprovider/src/main/java/com/github/florent37/application/provider/ActivityProvider.kt:74-183 | One more step without a collection: a ping of a live activity writes its event and makes it current at CREATE and RESUME; any other ping, add or remove leaves the current activity where it was |
| ProviderTrace.PingRunCurrent | applicationprovider/src/main/java/com/github/florent37/application/provider/ActivityProvider.kt:74-183 | In a run with no collection whose pings are of live activities, listeners may be added and removed. The run writes exactly the pinged events. After every step the current activity is the one named by the reference definition `LastMoved`: the activity of the last CREATE or RESUME so far, or the starting one |
| LifecycleBridge.Dispatch | applicationprovider/src/main/java/com/github/florent37/application/provider/ActivityProvider.kt:283-309 | `onActivitySaveInstanceState` changes nothing and calls no one. Each of the other six callbacks is exactly the ping of its phase, which records the activity's name and changes no queue |
| LifecycleBridge.ForwardingIsOneToOne | applicationprovider/src/main/java/com/github/florent37/application/provider/ActivityProvider.kt:283-309 | Only `onActivitySaveInstanceState` is dropped. Distinct callbacks forward distinct phases, and every phase has a callback |
| Scenarios.RepeatedResumeReportedOnce | applicationprovider/src/main/java/com/github/florent37/application/provider/ActivityProvider.kt:272-274 | RESUME(A), RESUME(A) is reported as a single event |
| Scenarios.CreateThenRepeatedResumeReportedOnce | applicationprovider/src/main/java/com/github/florent37/application/provider/ActivityProvider.kt:272-274 | CREATE(A), RESUME(A), RESUME(A) is reported as the single RESUME |
| Scenarios.AlternatingResumesAllReported | applicationprovider/src/main/java/com/github/florent37/application/provider/ActivityProvider.kt:272-274 | RESUME(A), RESUME(B), RESUME(A) with distinct names is reported in full: three events |
| Scenarios.SameNameDifferentObjectDropped | applicationprovider/src/main/java/com/github/florent37/application/provider/ActivityProvider.kt:272-274 | Repeats are judged by name, not identity: a second activity whose `toString()` equals the first one's is not reported |
| Scenarios.TwoActivityLifecycle | applicationprovider/src/main/java/com/github/florent37/application/provider/ActivityProvider.kt:134-183 | For CREATE(A), START(A), RESUME(A), PAUSE(A), CREATE(B), RESUME(B), the current activity is A, A, A, A, B, B. The six events are written in order, and the cell ends at RESUME(B) |
| Scenarios.ReclaimedActivityIsNotCurrent | applicationprovider/src/main/java/com/github/florent37/application/provider/ActivityProvider.kt:185-192 | After CREATE(A) the current activity is A. Once A is collected it is null |
| Scenarios.ListenerAddedThenRemoved | applicationprovider/src/main/java/com/github/florent37/application/provider/ActivityProvider.kt:74-155 | A registered CREATE listener receives CREATE(A) and already sees A as current and CREATE(A) as the last event. After removal, CREATE(B) calls no one |
| Scenarios.DuplicateRegistrationCalledTwice | applicationprovider/src/main/java/com/github/florent37/application/provider/ActivityProvider.kt:84-140 | A listener added twice is called twice by one ping |

## Left out

- Threads. `ConcurrentLinkedQueue` makes each `add`, `remove` and `forEach`
  safe under concurrent use, and the `MutableStateFlow` cells are
  thread-safe. The model applies operations one at a time.
- Changes to a queue by a listener while `forEach` is running over it (for
  example, a listener removing itself). The weakly consistent iterator's
  behaviour in that case is not modelled.
- Listener exceptions. The code does not catch them: a throwing listener ends
  the ping, and the remaining listeners are not called. The model only has
  listeners that return.
- Coroutine machinery:
  - the `callbackFlow` channel, `trySend` and its buffer;
  - suspension in `awaitClose`.

  A `listenX()` collection is modelled as the listener it registers while
  open (`Listen`), and its end as the removal (`Close`).
- `listenCurrentActivity` and `activity()`. What they deliver depends on when
  the collector resumes, relative to garbage collection.
- ActivityChanged.ListenActivityChanged: assumes its collector receives every
  value written to `_activitiesState`. A `StateFlow` collector that falls
  behind may miss intermediate values, which this model does not represent.
- ProviderTrace.History: assumes the same — every value written is received,
  in order, with no conflation.
- `equals` on activities and listeners is assumed to be object identity.
  `offerIfDiffer` (line 180) and `ConcurrentLinkedQueue.remove` (lines 81-131)
  compare with `equals`. A listener class that overrides it, such as a data
  class, would let `removeXListener(l2)` unregister an equal but different
  `l1`, and the model cannot express that.
- `toString()`. It is abstracted as a `text` field chosen with the activity;
  the class-name-and-hash format is not modelled.
- Garbage collection. It is abstracted as a growing set of reclaimed
  activities, chosen by the caller, with no reachability reasoning.
- `ApplicationProvider` and `EmptyProvider` are not part of this model.
  `LastActivityProvider.onCreate` is modelled only as the mapping from each
  platform callback to its ping (`LifecycleBridge`), not as registering
  callbacks with an application.
- The sample app (`MainActivity`, `SecondActivity`) and its dagger wiring are
  not part of this model.

=== FILE: activity_changed.dfy ===
/**
  `listenActivityChanged()`: the stream of recorded lifecycle events reduced to
  the RESUME events, with a RESUME dropped when its activity name equals the
  name of the RESUME passed on before it.
*/
module ActivityChanged {
  import opened LifecycleTypes
  import opened Flows

  /** The filter `it?.state == ActivityState.RESUME`; `null` fails it. */
  predicate IsResumed(e: Option<ActivityAndState>)
  {
    e.Some? && e.value.state == RESUME
  }

  /** The key `it?.name`. */
  function NameKey(e: Option<ActivityAndState>): Option<string>
  {
    if e.Some? then Some(e.value.name) else None
  }

  /** `listenActivitiesState.filter { … }.distinctUntilChangedBy { … }` applied
      to the values `history` that `listenActivitiesState` delivered. */
  function ListenActivityChanged(history: seq<Option<ActivityAndState>>): (r: seq<Option<ActivityAndState>>)
    ensures IsSubsequence(r, history)
    ensures forall i :: 0 <= i < |r| ==> r[i].Some? && r[i].value.state == RESUME
    ensures forall i :: 0 <= i < |r| - 1 ==> r[i].value.name != r[i + 1].value.name
  {
    var resumed := Filter(history, IsResumed);
    var r := DistinctUntilChangedBy(resumed, NameKey);
    SubsequenceMembers(r, resumed);
    assert forall i :: 0 <= i < |r| ==> r[i] in resumed;
    SubsequenceTransitive(r, resumed, history);
    assert forall i :: 0 <= i < |r| - 1 ==> NameKey(r[i]) != NameKey(r[i + 1]);
    r
  }

  /** The name of the last RESUME event in `history`, if there is one. */
  function LastResumedName(history: seq<Option<ActivityAndState>>): Option<string>
    decreases |history|
  {
    if history == [] then None
    else if IsResumed(history[|history| - 1]) then NameKey(history[|history| - 1])
    else LastResumedName(history[..|history| - 1])
  }

  /** The key `distinctUntilChangedBy` remembers after the RESUME events of
      `history` is the name of the last of them. */
  lemma {:induction false} FilteredLastKey(history: seq<Option<ActivityAndState>>)
    ensures LastKey(Filter(history, IsResumed), NameKey, None)
         == if LastResumedName(history).None? then None else Some(LastResumedName(history))
    decreases |history|
  {
    if history != [] {
      var init, e := history[..|history| - 1], history[|history| - 1];
      assert history == init + [e];
      FilterAppend(init, e, IsResumed);
      FilteredLastKey(init);
    }
  }

  /** What a collector of `listenActivityChanged()` receives when one more
      event is recorded: the event itself when it is a RESUME whose name
      differs from the last RESUME's name, and nothing otherwise. */
  lemma ListenActivityChangedStep(history: seq<Option<ActivityAndState>>, e: Option<ActivityAndState>)
    ensures ListenActivityChanged(history + [e])
         == ListenActivityChanged(history)
          + (if IsResumed(e) && LastResumedName(history) != NameKey(e) then [e] else [])
  {
    var resumed := Filter(history, IsResumed);
    var extended := resumed + (if IsResumed(e) then [e] else []);
    FilterAppend(history, e, IsResumed);
    assert ListenActivityChanged(history) == DistinctFrom(resumed, NameKey, None);
    assert ListenActivityChanged(history + [e]) == DistinctFrom(extended, NameKey, None);
    if IsResumed(e) {
      FilteredLastKey(history);
      DistinctFromAppend(resumed, e, NameKey, None);
    } else {
      assert extended == resumed;
    }
  }

  /** `ListenActivityChangedStep` in terms of what is already known about
      `history`: its output `out` and its last resumed name `last`. */
  lemma ListenActivityChangedFrom(history: seq<Option<ActivityAndState>>, e: Option<ActivityAndState>,
                                  out: seq<Option<ActivityAndState>>, last: Option<string>)
    requires ListenActivityChanged(history) == out && LastResumedName(history) == last
    ensures ListenActivityChanged(history + [e]) == out + (if IsResumed(e) && last != NameKey(e) then [e] else [])
    ensures LastResumedName(history + [e]) == if IsResumed(e) then NameKey(e) else last
  {
    ListenActivityChangedStep(history, e);
    assert (history + [e])[..|history|] == history;
  }

  /** The last value a collector receives names the last resumed activity. */
  lemma ListenActivityChangedEndsWithLatest(history: seq<Option<ActivityAndState>>)
    requires LastResumedName(history).Some?
    ensures |ListenActivityChanged(history)| > 0
    ensures NameKey(ListenActivityChanged(history)[|ListenActivityChanged(history)| - 1]) == LastResumedName(history)
  {
    var resumed := Filter(history, IsResumed);
    FilteredLastKey(history);
    DistinctFromKeepsLastKey(resumed, NameKey, None);
  }

  /** Applying the pipeline to its own output changes nothing. */
  lemma ListenActivityChangedIdempotent(history: seq<Option<ActivityAndState>>)
    ensures ListenActivityChanged(ListenActivityChanged(history)) == ListenActivityChanged(history)
  {
    var r := ListenActivityChanged(history);
    FilterOfKept(r, IsResumed);
    assert NoAdjacentKeys(r, NameKey) by {
      assert forall i :: 0 <= i < |r| - 1 ==> NameKey(r[i]) != NameKey(r[i + 1]);
    }
    DistinctFromOfDistinct(r, NameKey, None);
  }
}

=== FILE: activity_provider.dfy ===
/**
  The `ActivityProvider` object as a state machine. Its state is the six
  listener queues, the `_currentActivity` cell (a weak reference to the current
  activity) and the `_activitiesState` cell (the last recorded event). Every
  operation is a pure function from the old state to the new one; a ping also
  returns the listener calls it makes, in the order it makes them.

  The six `addXListener`/`removeXListener`/`pingXListeners`/`listenX` families
  differ only in which queue they use, so each family is one function with the
  phase as a parameter.
*/
module ActivityProvider {
  import opened LifecycleTypes
  import ListenerQueue

  datatype Provider = Provider(
    createdListeners: seq<Listener>,
    resumedListeners: seq<Listener>,
    pausedListeners: seq<Listener>,
    stoppedListeners: seq<Listener>,
    startedListeners: seq<Listener>,
    destroyedListeners: seq<Listener>,
    currentActivityRef: WeakRef,               // _currentActivity
    activitiesState: Option<ActivityAndState>) // _activitiesState

  /** The object as initialised: empty queues, `WeakReference(null)` and `null`. */
  const Initial: Provider := Provider([], [], [], [], [], [], WeakRef(None), None)

  /** The queue that holds the listeners of `phase`. */
  function Listeners(p: Provider, phase: ActivityState): seq<Listener>
  {
    match phase
    case CREATE => p.createdListeners
    case START => p.startedListeners
    case RESUME => p.resumedListeners
    case PAUSE => p.pausedListeners
    case STOP => p.stoppedListeners
    case DESTROY => p.destroyedListeners
  }

  function WithListeners(p: Provider, phase: ActivityState, q: seq<Listener>): (r: Provider)
    ensures Listeners(r, phase) == q
    ensures OnlyQueueChanged(p, r, phase)
  {
    match phase
    case CREATE => p.(createdListeners := q)
    case START => p.(startedListeners := q)
    case RESUME => p.(resumedListeners := q)
    case PAUSE => p.(pausedListeners := q)
    case STOP => p.(stoppedListeners := q)
    case DESTROY => p.(destroyedListeners := q)
  }

  /** Both cells, and the queues of every phase other than `phase`, are the same in `p` and `r`. */
  ghost predicate OnlyQueueChanged(p: Provider, r: Provider, phase: ActivityState)
  {
    && r.currentActivityRef == p.currentActivityRef
    && r.activitiesState == p.activitiesState
    && forall other :: other != phase ==> Listeners(r, other) == Listeners(p, other)
  }

  /** All six queues are the same in `p` and `r`. */
  ghost predicate SameQueues(p: Provider, r: Provider)
  {
    forall phase :: Listeners(r, phase) == Listeners(p, phase)
  }

  // ----- addXListener / removeXListener -----

  /** `addXListener(l)`: `l` joins the tail of the phase's queue, even if it is
      already registered there. */
  function AddListener(p: Provider, phase: ActivityState, l: Listener): (r: Provider)
    ensures Listeners(r, phase) == Listeners(p, phase) + [l]
    ensures OnlyQueueChanged(p, r, phase)
  {
    WithListeners(p, phase, Listeners(p, phase) + [l])
  }

  /** Adding `l` raises its registration count in the phase's queue by one. */
  lemma AddListenerCount(p: Provider, phase: ActivityState, l: Listener)
    ensures multiset(Listeners(AddListener(p, phase, l), phase))[l] == multiset(Listeners(p, phase))[l] + 1
  {
    assert multiset(Listeners(p, phase) + [l]) == multiset(Listeners(p, phase)) + multiset{l};
  }

  /** `removeXListener(l)`: the first registration of `l` in the phase's queue
      goes; nothing happens when `l` is not registered there. */
  function RemoveListener(p: Provider, phase: ActivityState, l: Listener): (r: Provider)
    ensures l !in Listeners(p, phase) ==> r == p
    ensures |Listeners(r, phase)| == if l in Listeners(p, phase) then |Listeners(p, phase)| - 1 else |Listeners(p, phase)|
    ensures OnlyQueueChanged(p, r, phase)
  {
    WithListeners(p, phase, ListenerQueue.RemoveFirst(Listeners(p, phase), l))
  }

  /** `removeXListener(l)` deletes exactly the first registration of `l`:
      the listeners before and after it keep their order, further
      registrations of `l` stay, and the count of `l` drops by one. */
  lemma RemoveListenerDeletesFirst(p: Provider, phase: ActivityState, l: Listener, before: seq<Listener>, after: seq<Listener>)
    requires Listeners(p, phase) == before + [l] + after
    requires l !in before
    ensures Listeners(RemoveListener(p, phase, l), phase) == before + after
    ensures multiset(Listeners(RemoveListener(p, phase, l), phase)) == multiset(Listeners(p, phase)) - multiset{l}
  {
    ListenerQueue.RemoveFirstSplits(before, l, after);
    ListenerQueue.RemoveFirstCount(Listeners(p, phase), l);
  }

  /** Adding and then removing the same listener restores the queue when the
      listener was not registered before. */
  lemma AddThenRemoveRestores(p: Provider, phase: ActivityState, l: Listener)
    requires l !in Listeners(p, phase)
    ensures RemoveListener(AddListener(p, phase, l), phase, l) == p
  {
    ListenerQueue.RemoveAfterAppend(Listeners(p, phase), l);
    assert SameQueues(p, RemoveListener(AddListener(p, phase, l), phase, l));
  }

  // ----- currentActivity / offerIfDiffer -----

  /** The `currentActivity` getter: `_currentActivity.value.get()`. */
  function CurrentActivity(p: Provider, reclaimed: set<Screen>): (r: Option<Screen>)
    ensures r.Some? <==> p.currentActivityRef.referent.Some? && p.currentActivityRef.referent.value !in reclaimed
    ensures r.Some? ==> r == p.currentActivityRef.referent
  {
    Get(p.currentActivityRef, reclaimed)
  }

  /** Before any ping there is no current activity and no recorded event, and
      no listener is registered. */
  lemma InitiallyEmpty(reclaimed: set<Screen>)
    ensures CurrentActivity(Initial, reclaimed) == None && Initial.activitiesState == None
    ensures forall phase :: Listeners(Initial, phase) == []
  {
  }

  /** `offerIfDiffer(s)`: a new weak reference to `s` is stored unless the
      current activity already resolves to `s`. */
  function OfferIfDiffer(p: Provider, s: Screen, reclaimed: set<Screen>): (r: Provider)
    ensures s !in reclaimed ==> CurrentActivity(r, reclaimed) == Some(s)
    ensures CurrentActivity(p, reclaimed) == Some(s) ==> r == p
    ensures CurrentActivity(p, reclaimed) != Some(s) ==> r.currentActivityRef == WeakRef(Some(s))
    ensures SameQueues(p, r) && r.activitiesState == p.activitiesState
  {
    var current := CurrentActivity(p, reclaimed);
    if current.None? || current.value != s then p.(currentActivityRef := WeakRef(Some(s))) else p
  }

  /** Offering the same activity twice is the same as offering it once. */
  lemma OfferIfDifferIdempotent(p: Provider, s: Screen, reclaimed: set<Screen>)
    ensures OfferIfDiffer(OfferIfDiffer(p, s, reclaimed), s, reclaimed) == OfferIfDiffer(p, s, reclaimed)
  {
  }

  // ----- pingXListeners -----

  /** `_activitiesState.tryEmit(ActivityAndState(s, phase))`: the state flow
      keeps only the value just written. */
  function Emit(p: Provider, phase: ActivityState, s: Screen): (r: Provider)
    ensures r.activitiesState == Some(Record(s, phase))
    ensures SameQueues(p, r) && r.currentActivityRef == p.currentActivityRef
  {
    p.(activitiesState := Some(Record(s, phase)))
  }

  /** One listener invocation `it.onActivityX(activity)`, together with what
      that listener would read from the provider during the call: the
      `currentActivity` getter and the `_activitiesState` value. */
  datatype Call = Call(
    listener: Listener,
    phase: ActivityState,
    activity: Screen,
    seenCurrent: Option<Screen>,
    seenState: Option<ActivityAndState>)

  datatype PingResult = PingResult(provider: Provider, calls: seq<Call>)

  /** The listeners called, in call order. */
  function Recipients(calls: seq<Call>): (r: seq<Listener>)
    ensures |r| == |calls|
    ensures forall i :: 0 <= i < |calls| ==> r[i] == calls[i].listener
  {
    seq(|calls|, i requires 0 <= i < |calls| => calls[i].listener)
  }

  /** `queue.forEach { it.onActivityX(s) }`: one call per registration, from
      head to tail. */
  function FanOut(q: seq<Listener>, phase: ActivityState, s: Screen,
                  seenCurrent: Option<Screen>, seenState: Option<ActivityAndState>): (calls: seq<Call>)
    ensures Recipients(calls) == q
    ensures forall c :: c in calls ==>
              c.phase == phase && c.activity == s && c.seenCurrent == seenCurrent && c.seenState == seenState
    decreases |q|
  {
    if q == [] then []
    else [Call(q[0], phase, s, seenCurrent, seenState)] + FanOut(q[1..], phase, s, seenCurrent, seenState)
  }

  /** `pingXListeners(s)` for the phase `phase`. CREATE first offers `s` as the
      current activity and then records the event; RESUME records first and
      then offers; the other four only record. The listeners are called last. */
  function Ping(p: Provider, phase: ActivityState, s: Screen, reclaimed: set<Screen>): (r: PingResult)
    // the last-event cell holds this event, whatever the phase
    ensures r.provider.activitiesState == Some(Record(s, phase))
    // no queue changes
    ensures SameQueues(p, r.provider)
    // CREATE and RESUME make `s` current; the others leave the cell alone
    ensures (phase == CREATE || phase == RESUME) && s !in reclaimed ==> CurrentActivity(r.provider, reclaimed) == Some(s)
    ensures (phase == CREATE || phase == RESUME) && CurrentActivity(p, reclaimed) == Some(s)
            ==> r.provider.currentActivityRef == p.currentActivityRef
    ensures phase != CREATE && phase != RESUME ==> r.provider.currentActivityRef == p.currentActivityRef
    // exactly the phase's listeners, once per registration, in queue order
    ensures Recipients(r.calls) == Listeners(p, phase)
    // each listener gets `s` through the phase's own callback, and already
    // sees the updated cells
    ensures forall c :: c in r.calls ==>
              && c.phase == phase && c.activity == s
              && c.seenCurrent == CurrentActivity(r.provider, reclaimed)
              && c.seenState == r.provider.activitiesState
  {
    var updated :=
      match phase
      case CREATE => Emit(OfferIfDiffer(p, s, reclaimed), CREATE, s)
      case RESUME => OfferIfDiffer(Emit(p, RESUME, s), s, reclaimed)
      case _ => Emit(p, phase, s);
    PingResult(updated, FanOut(Listeners(updated, phase), phase, s, CurrentActivity(updated, reclaimed), updated.activitiesState))
  }

  /** A CREATE or RESUME ping leaves `_currentActivity` referring to the
      pinged activity, whether or not the collector has reclaimed it. */
  lemma PingStoresRef(p: Provider, phase: ActivityState, s: Screen, reclaimed: set<Screen>)
    requires phase == CREATE || phase == RESUME
    ensures Ping(p, phase, s, reclaimed).provider.currentActivityRef == WeakRef(Some(s))
  {
  }

  /** The number of calls a listener receives from a ping is the number of
      times it is registered for that phase; listeners of other phases only
      are not called at all. */
  lemma PingCallsPerRegistration(p: Provider, phase: ActivityState, s: Screen, reclaimed: set<Screen>, l: Listener)
    ensures multiset(Recipients(Ping(p, phase, s, reclaimed).calls))[l] == multiset(Listeners(p, phase))[l]
    ensures l !in Listeners(p, phase) ==> forall c :: c in Ping(p, phase, s, reclaimed).calls ==> c.listener != l
  {
    var calls := Ping(p, phase, s, reclaimed).calls;
    if l !in Listeners(p, phase) {
      forall c | c in calls
        ensures c.listener != l
      {
        var i :| 0 <= i < |calls| && calls[i] == c;
        assert Recipients(calls)[i] == c.listener;
      }
    }
  }

  /** `pingCreatedListeners` offers before it records and `pingResumedListeners`
      records before it offers; the two orders reach the same state. */
  lemma OfferAndEmitCommute(p: Provider, phase: ActivityState, s: Screen, reclaimed: set<Screen>)
    ensures Emit(OfferIfDiffer(p, s, reclaimed), phase, s) == OfferIfDiffer(Emit(p, phase, s), s, reclaimed)
  {
  }

  // ----- listenX(): callbackFlow subscriptions -----

  /** A collection of `listenX()`: the listener object its `callbackFlow`
      created and the phase whose queue it joined. */
  datatype Subscription = Subscription(phase: ActivityState, listener: Listener)

  datatype Subscribed = Subscribed(provider: Provider, subscription: Subscription)

  function MaxListenerId(q: seq<Listener>): (m: nat)
    ensures forall l :: l in q ==> l.id <= m
    decreases |q|
  {
    if q == [] then 0
    else
      var rest := MaxListenerId(q[1..]);
      assert forall l :: l in q ==> l == q[0] || l in q[1..];
      if q[0].id > rest then q[0].id else rest
  }

  /** A listener object that is not registered anywhere, standing for the one
      `object : XListener { … }` creates inside the `callbackFlow`. The model
      only makes it distinct from the listeners registered now. The source
      object is private to the `callbackFlow` block, so no client can ever add
      or remove it; that fact enters as the `l != sub.listener` requirement of
      `AddKeepsOpen` and `RemoveKeepsOpen`. */
  function FreshListener(p: Provider): (l: Listener)
    ensures forall phase :: l !in Listeners(p, phase)
  {
    var m := MaxListenerId(p.createdListeners + p.startedListeners + p.resumedListeners
                           + p.pausedListeners + p.stoppedListeners + p.destroyedListeners);
    Listener(m + 1)
  }

  /** Collecting `listenX()`: a fresh listener is added to the phase's queue. */
  function Listen(p: Provider, phase: ActivityState): (r: Subscribed)
    ensures r.subscription.phase == phase
    ensures forall other :: r.subscription.listener !in Listeners(p, other)
    ensures Listeners(r.provider, phase) == Listeners(p, phase) + [r.subscription.listener]
    ensures OnlyQueueChanged(p, r.provider, phase)
  {
    var l := FreshListener(p);
    Subscribed(AddListener(p, phase, l), Subscription(phase, l))
  }

  /** The collection ending (`awaitClose { removeXListener(listener) }`). */
  function Close(p: Provider, sub: Subscription): (r: Provider)
    ensures sub.listener !in Listeners(p, sub.phase) ==> r == p
    ensures sub.listener in Listeners(p, sub.phase) ==>
              multiset(Listeners(r, sub.phase)) == multiset(Listeners(p, sub.phase)) - multiset{sub.listener}
    ensures OnlyQueueChanged(p, r, sub.phase)
  {
    ListenerQueue.RemoveFirstCount(Listeners(p, sub.phase), sub.listener);
    RemoveListener(p, sub.phase, sub.listener)
  }
  /** Closing takes out the subscription's first registration only: the
      listeners before and after it keep their order, so they are still
      called in the order they registered. */
  lemma CloseDeletesFirst(p: Provider, sub: Subscription, before: seq<Listener>, after: seq<Listener>)
    requires Listeners(p, sub.phase) == before + [sub.listener] + after
    requires sub.listener !in before
    ensures Listeners(Close(p, sub), sub.phase) == before + after
    ensures OnlyQueueChanged(p, Close(p, sub), sub.phase)
  {
    RemoveListenerDeletesFirst(p, sub.phase, sub.listener, before, after);
  }


  /** A subscription is open in `p` when its listener is registered exactly
      once, in its own phase's queue, and nowhere else. */
  ghost predicate IsOpen(p: Provider, sub: Subscription)
  {
    && multiset(Listeners(p, sub.phase))[sub.listener] == 1
    && forall other :: other != sub.phase ==> sub.listener !in Listeners(p, other)
  }

  /** Subscribing and then closing restores the provider exactly. */
  lemma ListenThenCloseRestores(p: Provider, phase: ActivityState)
    ensures Close(Listen(p, phase).provider, Listen(p, phase).subscription) == p
  {
    var r := Listen(p, phase);
    AddThenRemoveRestores(p, phase, r.subscription.listener);
  }

  /** A fresh subscription is open. */
  lemma ListenOpens(p: Provider, phase: ActivityState)
    ensures IsOpen(Listen(p, phase).provider, Listen(p, phase).subscription)
  {
    var r := Listen(p, phase);
    assert r.subscription.listener !in Listeners(p, phase);
  }

  /** While open, a subscription receives each ping of its phase exactly once
      and no ping of another phase. */
  lemma OpenSubscriptionReceivesItsPhase(p: Provider, sub: Subscription, phase: ActivityState, s: Screen, reclaimed: set<Screen>)
    requires IsOpen(p, sub)
    ensures multiset(Recipients(Ping(p, phase, s, reclaimed).calls))[sub.listener] == if phase == sub.phase then 1 else 0
  {
    PingCallsPerRegistration(p, phase, s, reclaimed, sub.listener);
  }

  /** Adding another listener, to any phase, keeps a subscription open. */
  lemma AddKeepsOpen(p: Provider, sub: Subscription, phase: ActivityState, l: Listener)
    requires IsOpen(p, sub) && l != sub.listener
    ensures IsOpen(AddListener(p, phase, l), sub)
  {
  }

  /** Removing another listener, from any phase, keeps a subscription open. */
  lemma RemoveKeepsOpen(p: Provider, sub: Subscription, phase: ActivityState, l: Listener)
    requires IsOpen(p, sub) && l != sub.listener
    ensures IsOpen(RemoveListener(p, phase, l), sub)
  {
    var q := Listeners(p, phase);
    var r := RemoveListener(p, phase, l);
    ListenerQueue.RemoveFirstCount(q, l);
    assert multiset(Listeners(r, phase))[sub.listener] == multiset(q)[sub.listener];
    if phase != sub.phase {
      assert sub.listener !in Listeners(r, phase) by {
        assert multiset(q)[sub.listener] == 0;
      }
    }
  }

  /** Another subscription coming along keeps a subscription open. */
  lemma ListenKeepsOpen(p: Provider, sub: Subscription, phase: ActivityState)
    requires IsOpen(p, sub)
    ensures IsOpen(Listen(p, phase).provider, sub)
  {
    assert sub.listener in Listeners(p, sub.phase);
  }

  /** Closing an open subscription removes its listener and nothing else, so
      later pings no longer reach it: no registration leaks. */
  lemma CloseUnregisters(p: Provider, sub: Subscription, phase: ActivityState, s: Screen, reclaimed: set<Screen>)
    requires IsOpen(p, sub)
    ensures multiset(Listeners(Close(p, sub), sub.phase)) == multiset(Listeners(p, sub.phase)) - multiset{sub.listener}
    ensures forall other :: sub.listener !in Listeners(Close(p, sub), other)
    ensures forall c :: c in Ping(Close(p, sub), phase, s, reclaimed).calls ==> c.listener != sub.listener
  {
    var q := Listeners(p, sub.phase);
    ListenerQueue.RemoveFirstCount(q, sub.listener);
    var closed := Close(p, sub);
    assert multiset(Listeners(closed, sub.phase))[sub.listener] == 0;
    PingCallsPerRegistration(closed, phase, s, reclaimed, sub.listener);
  }
}

=== FILE: flows.dfy ===
/**
  The two flow operators `listenActivityChanged` is built from, `filter` and
  `distinctUntilChangedBy`, over a stream that is modelled as the finite
  sequence of values a collector receives, in order.
*/
module Flows {
  import opened LifecycleTypes

  /** `a` can be obtained from `b` by deleting elements. */
  ghost predicate IsSubsequence<T>(a: seq<T>, b: seq<T>)
    decreases |b|
  {
    if a == [] then true
    else if b == [] then false
    else (a[0] == b[0] && IsSubsequence(a[1..], b[1..])) || IsSubsequence(a, b[1..])
  }

  lemma {:induction false} SubsequenceTransitive<T>(a: seq<T>, b: seq<T>, c: seq<T>)
    requires IsSubsequence(a, b) && IsSubsequence(b, c)
    ensures IsSubsequence(a, c)
    decreases |c|
  {
    if a == [] {
    } else if b[0] == c[0] && IsSubsequence(b[1..], c[1..]) {
      if a[0] == b[0] && IsSubsequence(a[1..], b[1..]) {
        SubsequenceTransitive(a[1..], b[1..], c[1..]);
      } else {
        SubsequenceTransitive(a, b[1..], c[1..]);
      }
    } else {
      SubsequenceTransitive(a, b, c[1..]);
    }
  }

  /** Every element of a subsequence is an element of the whole. */
  lemma {:induction false} SubsequenceMembers<T>(a: seq<T>, b: seq<T>)
    requires IsSubsequence(a, b)
    ensures forall x :: x in a ==> x in b
    decreases |b|
  {
    if a != [] {
      if a[0] == b[0] && IsSubsequence(a[1..], b[1..]) {
        SubsequenceMembers(a[1..], b[1..]);
        assert forall x :: x in a ==> x == a[0] || x in a[1..];
      } else {
        SubsequenceMembers(a, b[1..]);
      }
    }
  }

  /** `filter { keep(it) }`. */
  function Filter<T>(xs: seq<T>, keep: T -> bool): (r: seq<T>)
    ensures forall i :: 0 <= i < |r| ==> keep(r[i])
    ensures forall x :: x in xs && keep(x) ==> x in r
    ensures IsSubsequence(r, xs)
    decreases |xs|
  {
    if xs == [] then []
    else if keep(xs[0]) then [xs[0]] + Filter(xs[1..], keep)
    else Filter(xs[1..], keep)
  }

  /** The key `distinctUntilChangedBy` last remembered after `xs`, starting
      from `prev` (`None` standing for "nothing emitted yet"). Every element
      either is emitted or has the remembered key, so this is the key of the
      last element when there is one. */
  function LastKey<T, K>(xs: seq<T>, key: T -> K, prev: Option<K>): Option<K>
  {
    if xs == [] then prev else Some(key(xs[|xs| - 1]))
  }

  /** No two neighbours have the same key. */
  ghost predicate NoAdjacentKeys<T, K>(xs: seq<T>, key: T -> K)
  {
    forall i :: 0 <= i < |xs| - 1 ==> key(xs[i]) != key(xs[i + 1])
  }

  /** `distinctUntilChangedBy(key)` from a state whose remembered key is
      `prev`: an element is emitted when nothing was emitted yet or its key
      differs from the last emitted one. */
  function DistinctFrom<T, K(==)>(xs: seq<T>, key: T -> K, prev: Option<K>): (r: seq<T>)
    ensures IsSubsequence(r, xs)
    ensures |r| > 0 ==> prev != Some(key(r[0]))
    ensures NoAdjacentKeys(r, key)
    decreases |xs|
  {
    if xs == [] then []
    else if prev == Some(key(xs[0])) then DistinctFrom(xs[1..], key, prev)
    else [xs[0]] + DistinctFrom(xs[1..], key, Some(key(xs[0])))
  }

  /** `distinctUntilChangedBy(key)` on a fresh collection. */
  function DistinctUntilChangedBy<T, K(==)>(xs: seq<T>, key: T -> K): (r: seq<T>)
    ensures IsSubsequence(r, xs)
    ensures NoAdjacentKeys(r, key)
  {
    DistinctFrom(xs, key, None)
  }

  /** What a collector sees when one more value arrives: `filter` passes it
      on exactly when it is kept. */
  lemma {:induction false} FilterAppend<T>(xs: seq<T>, x: T, keep: T -> bool)
    ensures Filter(xs + [x], keep) == Filter(xs, keep) + (if keep(x) then [x] else [])
    decreases |xs|
  {
    if xs == [] {
      assert [x][1..] == [];
    } else {
      assert (xs + [x])[1..] == xs[1..] + [x];
      FilterAppend(xs[1..], x, keep);
    }
  }

  /** What a collector sees when one more value arrives:
      `distinctUntilChangedBy` passes it on exactly when its key differs from
      the remembered one. Together with `DistinctFrom([], key, prev) == []`
      this determines the operator completely. */
  lemma {:induction false} DistinctFromAppend<T, K>(xs: seq<T>, y: T, key: T -> K, prev: Option<K>)
    ensures DistinctFrom(xs + [y], key, prev)
         == DistinctFrom(xs, key, prev) + (if LastKey(xs, key, prev) == Some(key(y)) then [] else [y])
    decreases |xs|
  {
    if xs == [] {
      assert [y][1..] == [];
    } else {
      assert (xs + [y])[1..] == xs[1..] + [y];
      var next := if prev == Some(key(xs[0])) then prev else Some(key(xs[0]));
      DistinctFromAppend(xs[1..], y, key, next);
      assert LastKey(xs[1..], key, next) == LastKey(xs, key, prev);
    }
  }

  /** The remembered key after the output equals the remembered key after the
      input: the last value a collector receives has the key of the last
      upstream value. */
  lemma {:induction false} DistinctFromKeepsLastKey<T, K>(xs: seq<T>, key: T -> K, prev: Option<K>)
    ensures LastKey(DistinctFrom(xs, key, prev), key, prev) == LastKey(xs, key, prev)
    decreases |xs|
  {
    if xs != [] {
      var next := if prev == Some(key(xs[0])) then prev else Some(key(xs[0]));
      DistinctFromKeepsLastKey(xs[1..], key, next);
      var rest := DistinctFrom(xs[1..], key, next);
      if prev != Some(key(xs[0])) {
        assert DistinctFrom(xs, key, prev) == [xs[0]] + rest;
        if rest != [] {
          assert ([xs[0]] + rest)[|rest|] == rest[|rest| - 1];
        }
      }
    }
  }

  /** A stream that already has no repeated neighbouring keys, and does not
      start with the remembered key, passes through unchanged. */
  lemma {:induction false} DistinctFromOfDistinct<T, K>(xs: seq<T>, key: T -> K, prev: Option<K>)
    requires NoAdjacentKeys(xs, key)
    requires |xs| > 0 ==> prev != Some(key(xs[0]))
    ensures DistinctFrom(xs, key, prev) == xs
    decreases |xs|
  {
    if xs != [] {
      assert NoAdjacentKeys(xs[1..], key) by {
        forall i | 0 <= i < |xs[1..]| - 1
          ensures key(xs[1..][i]) != key(xs[1..][i + 1])
        {
          assert xs[1..][i] == xs[i + 1] && xs[1..][i + 1] == xs[i + 2];
        }
      }
      if |xs| > 1 {
        assert key(xs[0]) != key(xs[1]);
      }
      DistinctFromOfDistinct(xs[1..], key, Some(key(xs[0])));
      assert xs == [xs[0]] + xs[1..];
    }
  }

  /** Filtering a stream whose every element is kept changes nothing. */
  lemma {:induction false} FilterOfKept<T>(xs: seq<T>, keep: T -> bool)
    requires forall i :: 0 <= i < |xs| ==> keep(xs[i])
    ensures Filter(xs, keep) == xs
    decreases |xs|
  {
    if xs != [] {
      FilterOfKept(xs[1..], keep);
      assert xs == [xs[0]] + xs[1..];
    }
  }
}

=== FILE: lifecycle_bridge.dfy ===
/**
  `LastActivityProvider`: the `Application.ActivityLifecycleCallbacks` it
  registers forward six of the seven platform callbacks to the matching
  `pingXListeners`; `onActivitySaveInstanceState` does nothing.
*/
module LifecycleBridge {
  import opened LifecycleTypes
  import opened ActivityProvider

  datatype CallbackKind =
    | OnActivityCreated
    | OnActivityResumed
    | OnActivityPaused
    | OnActivityDestroyed
    | OnActivityStarted
    | OnActivitySaveInstanceState
    | OnActivityStopped

  /** The phase a platform callback is forwarded as, if any. */
  function ForwardedPhase(kind: CallbackKind): Option<ActivityState>
  {
    match kind
    case OnActivityCreated => Some(CREATE)
    case OnActivityResumed => Some(RESUME)
    case OnActivityPaused => Some(PAUSE)
    case OnActivityDestroyed => Some(DESTROY)
    case OnActivityStarted => Some(START)
    case OnActivitySaveInstanceState => None
    case OnActivityStopped => Some(STOP)
  }

  /** Handling one platform callback for `activity`. */
  function Dispatch(p: Provider, kind: CallbackKind, activity: Screen, reclaimed: set<Screen>): (r: PingResult)
    ensures kind == OnActivitySaveInstanceState ==> r == PingResult(p, [])
    ensures forall phase :: ForwardedPhase(kind) == Some(phase) ==> r == Ping(p, phase, activity, reclaimed)
    ensures kind != OnActivitySaveInstanceState ==>
              r.provider.activitiesState.Some? && r.provider.activitiesState.value.name == activity.text
    ensures kind != OnActivitySaveInstanceState ==> SameQueues(p, r.provider)
  {
    match ForwardedPhase(kind)
    case None => PingResult(p, [])
    case Some(phase) => Ping(p, phase, activity, reclaimed)
  }

  /** Every phase is forwarded from exactly one callback, and only
      `onActivitySaveInstanceState` is dropped. */
  lemma ForwardingIsOneToOne(a: CallbackKind, b: CallbackKind, phase: ActivityState)
    ensures ForwardedPhase(a).None? <==> a == OnActivitySaveInstanceState
    ensures ForwardedPhase(a).Some? && ForwardedPhase(a) == ForwardedPhase(b) ==> a == b
    ensures exists k :: ForwardedPhase(k) == Some(phase)
  {
    var k :=
      match phase
      case CREATE => OnActivityCreated
      case START => OnActivityStarted
      case RESUME => OnActivityResumed
      case PAUSE => OnActivityPaused
      case STOP => OnActivityStopped
      case DESTROY => OnActivityDestroyed;
    assert ForwardedPhase(k) == Some(phase);
  }
}

=== FILE: lifecycle_types.dfy ===
/**
  The values the activity hub talks about: lifecycle phases, screens (activities),
  listeners, weak references to screens and the recorded `ActivityAndState` event.

  Dafny value equality stands for Kotlin `equals` on activities and listeners,
  which is assumed to be object identity (neither class overrides it): two
  `Screen` values are equal exactly when they denote the same activity object,
  and two `Listener` values are equal exactly when they denote the same
  listener object.
*/
module LifecycleTypes {

  /** Kotlin's nullable types (`T?`): `None` plays the part of `null`. */
  datatype Option<+T> = None | Some(value: T)

  /** The six lifecycle phases, in the order `ActivityState` declares them. */
  datatype ActivityState = CREATE | START | RESUME | PAUSE | STOP | DESTROY

  /** An activity object. The whole value is its identity: `ref` tells
      objects apart, and `text`, what its `toString()` returns (class name and
      identity hash), is fixed per object, so one `ref` is never used with two
      texts. Distinct objects may share a `text`: `toString()` is not
      guaranteed to be unique. */
  datatype Screen = Screen(ref: nat, text: string)

  /** A listener object, identified by `id`. One object may implement several
      of the six listener interfaces, so one type serves all six registries. */
  datatype Listener = Listener(id: nat)

  /** A `WeakReference<Activity?>`: the referent it was created with
      (`None` for `WeakReference(null)`). */
  datatype WeakRef = WeakRef(referent: Option<Screen>)

  /** `WeakReference.get()`: the referent, unless the garbage collector has
      reclaimed it. The collector's state is the set `reclaimed`. */
  function Get(w: WeakRef, reclaimed: set<Screen>): (r: Option<Screen>)
    ensures r.Some? <==> w.referent.Some? && w.referent.value !in reclaimed
    ensures r.Some? ==> r == w.referent
  {
    match w.referent
    case Some(s) => if s in reclaimed then None else Some(s)
    case None => None
  }

  /** `ActivityAndState`: the activity's `toString()` captured at construction
      as `name`, a weak reference to the activity, and the phase. */
  datatype ActivityAndState = ActivityAndState(name: string, activity: WeakRef, state: ActivityState)

  /** The `ActivityAndState(activity, state)` constructor call. */
  function Record(s: Screen, state: ActivityState): (e: ActivityAndState)
    ensures e.name == s.text && e.state == state
    ensures forall reclaimed: set<Screen> :: Get(e.activity, reclaimed) == (if s in reclaimed then None else Some(s))
  {
    ActivityAndState(s.text, WeakRef(Some(s)), state)
  }
}

=== FILE: listener_queue.dfy ===
/**
  `ConcurrentLinkedQueue.remove` on the queue each phase keeps its listeners
  in, used sequentially: it deletes the first element equal to its argument,
  if any. The queue's other two operations need no function of their own:
  `add` appends at the tail and keeps duplicates (`ActivityProvider.AddListener`),
  and `forEach` runs from head to tail (`ActivityProvider.FanOut`).
*/
module ListenerQueue {

  /** `ConcurrentLinkedQueue.remove(x)`: removes a single occurrence of `x`,
      the one nearest the head (see `RemoveFirstSplits`), and leaves the queue
      alone when `x` is absent. */
  function RemoveFirst<T(==)>(q: seq<T>, x: T): (r: seq<T>)
    ensures x !in q ==> r == q
    ensures |r| == if x in q then |q| - 1 else |q|
  {
    if q == [] then []
    else if q[0] == x then
      assert q == [x] + q[1..];
      q[1..]
    else
      assert q == [q[0]] + q[1..];
      [q[0]] + RemoveFirst(q[1..], x)
  }

  /** `remove` takes out the first occurrence and nothing else: whatever
      precedes it and whatever follows it (further copies included) stay, in
      order. Every queue holding `x` splits this way at its first `x`. */
  lemma {:induction false} RemoveFirstSplits<T>(q1: seq<T>, x: T, q2: seq<T>)
    requires x !in q1
    ensures RemoveFirst(q1 + [x] + q2, x) == q1 + q2
    decreases |q1|
  {
    var q := q1 + [x] + q2;
    if q1 == [] {
      assert q == [x] + q2;
    } else {
      assert q[0] == q1[0] && q1[0] != x;
      assert q[1..] == q1[1..] + [x] + q2;
      RemoveFirstSplits(q1[1..], x, q2);
      assert q1 + q2 == [q1[0]] + (q1[1..] + q2);
    }
  }

  /** `remove` deletes at most one occurrence: one copy of `x` when there is
      one, and no other element. */
  lemma {:induction false} RemoveFirstCount<T>(q: seq<T>, x: T)
    ensures multiset(RemoveFirst(q, x)) == multiset(q) - multiset{x}
    decreases |q|
  {
    if q != [] {
      assert q == [q[0]] + q[1..];
      RemoveFirstCount(q[1..], x);
    }
  }

  /** An element pushed onto a queue that did not hold it is removed by the
      next `remove` of it, restoring the queue. */
  lemma RemoveAfterAppend<T>(q: seq<T>, x: T)
    requires x !in q
    ensures RemoveFirst(q + [x], x) == q
  {
    RemoveFirstSplits(q, x, []);
    assert q + [x] + [] == q + [x];
  }
}

=== FILE: provider_trace.dfy ===
/**
  Runs of the provider: a sequence of client calls, platform pings and garbage
  collections applied in order, together with what the provider's two state
  flows and its listeners observed along the way.

  A `MutableStateFlow` holds one value; a collector that keeps up receives the
  initial value and then every value written. `ActivityAndState` does not
  override `equals`, so every ping writes a value the flow treats as new, and
  the collector receives one value per ping.
*/
module ProviderTrace {
  import opened LifecycleTypes
  import opened ActivityProvider
  import ActivityChanged

  /** One thing that happens to the provider: a client adds or removes a
      listener, the platform pings a phase for an activity, or the garbage
      collector reclaims an activity. */
  datatype Op =
    | AddOp(phase: ActivityState, listener: Listener)
    | RemoveOp(phase: ActivityState, listener: Listener)
    | PingOp(phase: ActivityState, activity: Screen)
    | CollectOp(activity: Screen)

  datatype Trace = Trace(
    provider: Provider,
    reclaimed: set<Screen>,
    emitted: seq<ActivityAndState>,   // values written to _activitiesState, in order
    current: seq<Option<Screen>>,     // the currentActivity getter after each step
    calls: seq<Call>)                 // listener calls, in order

  /** The number of pings among `ops`. */
  function PingCount(ops: seq<Op>): nat
    decreases |ops|
  {
    if ops == [] then 0
    else PingCount(ops[..|ops| - 1]) + (if ops[|ops| - 1].PingOp? then 1 else 0)
  }

  /** Apply one step to the end state of a trace. */
  function Extend(t: Trace, op: Op): (t': Trace)
    ensures t'.current == t.current + [CurrentActivity(t'.provider, t'.reclaimed)]
    ensures t.reclaimed <= t'.reclaimed
    ensures op.PingOp? ==> t'.emitted == t.emitted + [Record(op.activity, op.phase)]
    ensures op.PingOp? ==> t'.provider.activitiesState == Some(Record(op.activity, op.phase))
    ensures !op.PingOp? ==> t'.emitted == t.emitted && t'.provider.activitiesState == t.provider.activitiesState
    ensures !op.PingOp? ==> t'.calls == t.calls
    ensures !op.CollectOp? ==> t'.reclaimed == t.reclaimed
    ensures op.CollectOp? ==> t'.provider == t.provider && t'.reclaimed == t.reclaimed + {op.activity}
  {
    match op
    case AddOp(phase, l) =>
      var q := AddListener(t.provider, phase, l);
      t.(provider := q, current := t.current + [CurrentActivity(q, t.reclaimed)])
    case RemoveOp(phase, l) =>
      var q := RemoveListener(t.provider, phase, l);
      t.(provider := q, current := t.current + [CurrentActivity(q, t.reclaimed)])
    case PingOp(phase, s) =>
      var r := Ping(t.provider, phase, s, t.reclaimed);
      Trace(r.provider, t.reclaimed, t.emitted + [Record(s, phase)],
            t.current + [CurrentActivity(r.provider, t.reclaimed)], t.calls + r.calls)
    case CollectOp(s) =>
      var gone := t.reclaimed + {s};
      t.(reclaimed := gone, current := t.current + [CurrentActivity(t.provider, gone)])
  }

  /** A client's `addXListener` or `removeXListener` step goes through
      `AddListener` or `RemoveListener` on the provider reached so far. It
      calls no listener, writes nothing, collects nothing and leaves the
      current activity where it was. */
  lemma ClientStep(t: Trace, op: Op)
    requires op.AddOp? || op.RemoveOp?
    ensures Extend(t, op).provider
         == if op.AddOp? then AddListener(t.provider, op.phase, op.listener)
            else RemoveListener(t.provider, op.phase, op.listener)
    ensures Extend(t, op).reclaimed == t.reclaimed
    ensures Extend(t, op).emitted == t.emitted && Extend(t, op).calls == t.calls
    ensures Extend(t, op).current == t.current + [CurrentActivity(t.provider, t.reclaimed)]
  {
  }

  /** Apply `ops` in order, starting from `p` with the activities in
      `reclaimed` already collected. */
  function Run(p: Provider, reclaimed: set<Screen>, ops: seq<Op>): (t: Trace)
    ensures |t.current| == |ops|
    ensures |t.emitted| == PingCount(ops)
    ensures reclaimed <= t.reclaimed
    ensures ops != [] ==> t.current[|ops| - 1] == CurrentActivity(t.provider, t.reclaimed)
    // only the most recent event is retained
    ensures t.provider.activitiesState == if t.emitted == [] then p.activitiesState else Some(t.emitted[|t.emitted| - 1])
    decreases |ops|
  {
    if ops == [] then Trace(p, reclaimed, [], [], [])
    else
      Extend(Run(p, reclaimed, ops[..|ops| - 1]), ops[|ops| - 1])
  }

  /** A run one step longer is the shorter run extended by that step. */
  lemma RunStep(p: Provider, reclaimed: set<Screen>, ops: seq<Op>, op: Op)
    ensures Run(p, reclaimed, ops + [op]) == Extend(Run(p, reclaimed, ops), op)
  {
    assert (ops + [op])[..|ops|] == ops;
  }

  /** A ping at the end of a run: the provider goes through `Ping`, the
      collector state is unchanged, and one value is written. */
  lemma RunPingStep(p: Provider, reclaimed: set<Screen>, ops: seq<Op>, phase: ActivityState, s: Screen)
    ensures
      var t := Run(p, reclaimed, ops);
      var t' := Run(p, reclaimed, ops + [PingOp(phase, s)]);
      && t'.reclaimed == t.reclaimed
      && t'.provider == Ping(t.provider, phase, s, t.reclaimed).provider
      && t'.current == t.current + [CurrentActivity(t'.provider, t.reclaimed)]
      && t'.emitted == t.emitted + [Record(s, phase)]
      && t'.calls == t.calls + Ping(t.provider, phase, s, t.reclaimed).calls
  {
    RunStep(p, reclaimed, ops, PingOp(phase, s));
  }

  /** The values a collector of `listenActivitiesState` receives during a run
      from `p`: the value it finds, then one value per ping. */
  function History(p: Provider, t: Trace): (h: seq<Option<ActivityAndState>>)
    ensures |h| == |t.emitted| + 1
    ensures h[0] == p.activitiesState
    ensures forall i :: 0 <= i < |t.emitted| ==> h[i + 1] == Some(t.emitted[i])
  {
    [p.activitiesState] + seq(|t.emitted|, i requires 0 <= i < |t.emitted| => Some(t.emitted[i]))
  }

  /** The last-event cell always holds the last value its collector received. */
  lemma CellHoldsLastDelivered(p: Provider, reclaimed: set<Screen>, ops: seq<Op>)
    ensures var t := Run(p, reclaimed, ops);
            t.provider.activitiesState == History(p, t)[|History(p, t)| - 1]
  {
  }

  /** One more step adds to the collector's history the value the step
      writes, if it is a ping, and nothing otherwise. */
  lemma HistoryAtStep(p: Provider, reclaimed: set<Screen>, ops: seq<Op>, op: Op)
    ensures History(p, Run(p, reclaimed, ops + [op]))
         == History(p, Run(p, reclaimed, ops)) + (if op.PingOp? then [Some(Record(op.activity, op.phase))] else [])
  {
    RunStep(p, reclaimed, ops, op);
    HistoryOfExtend(p, Run(p, reclaimed, ops), op);
  }

  lemma HistoryOfExtend(p: Provider, t: Trace, op: Op)
    ensures History(p, Extend(t, op)) == History(p, t) + (if op.PingOp? then [Some(Record(op.activity, op.phase))] else [])
  {
    var h, h' := History(p, t), History(p, Extend(t, op));
    if op.PingOp? {
      assert |h'| == |h| + 1;
      forall i | 0 <= i < |h'|
        ensures h'[i] == (h + [Some(Record(op.activity, op.phase))])[i]
      {
      }
    } else {
      assert Extend(t, op).emitted == t.emitted;
    }
  }

  /** A collector of `listenActivityChanged()` during a run receives, at one
      more step, the pinged event when the step is a RESUME ping whose
      activity name differs from the last resumed name, and nothing for any
      other step. */
  lemma ActivityChangedAtStep(p: Provider, reclaimed: set<Screen>, ops: seq<Op>, op: Op)
    ensures
      var before := History(p, Run(p, reclaimed, ops));
      var after := History(p, Run(p, reclaimed, ops + [op]));
      ActivityChanged.ListenActivityChanged(after)
        == ActivityChanged.ListenActivityChanged(before)
         + (if op.PingOp? && op.phase == RESUME && ActivityChanged.LastResumedName(before) != Some(op.activity.text)
            then [Some(Record(op.activity, RESUME))] else [])
  {
    var before := History(p, Run(p, reclaimed, ops));
    HistoryAtStep(p, reclaimed, ops, op);
    if op.PingOp? {
      ActivityChanged.ListenActivityChangedStep(before, Some(Record(op.activity, op.phase)));
    } else {
      assert before + [] == before;
    }
  }

  /** A ping at the end of a run: after a CREATE or RESUME of a live activity
      that activity is current; after any other phase the current activity is
      what it was. Nothing is collected and one value is written. */
  lemma CurrentAfterPing(p: Provider, reclaimed: set<Screen>, ops: seq<Op>, phase: ActivityState, s: Screen)
    requires s !in Run(p, reclaimed, ops).reclaimed
    ensures
      var t := Run(p, reclaimed, ops);
      var t' := Run(p, reclaimed, ops + [PingOp(phase, s)]);
      && t'.reclaimed == t.reclaimed
      && t'.emitted == t.emitted + [Record(s, phase)]
      && t'.current == t.current + [CurrentActivity(t'.provider, t'.reclaimed)]
      && CurrentActivity(t'.provider, t'.reclaimed)
         == if phase == CREATE || phase == RESUME then Some(s) else CurrentActivity(t.provider, t.reclaimed)
  {
    RunPingStep(p, reclaimed, ops, phase, s);
  }

  /** After the collector reclaims the current activity there is none. */
  lemma CurrentAfterCollect(p: Provider, reclaimed: set<Screen>, ops: seq<Op>, s: Screen)
    requires CurrentActivity(Run(p, reclaimed, ops).provider, Run(p, reclaimed, ops).reclaimed) == Some(s)
    ensures Run(p, reclaimed, ops + [CollectOp(s)]).current == Run(p, reclaimed, ops).current + [None]
  {
    RunStep(p, reclaimed, ops, CollectOp(s));
    var t := Run(p, reclaimed, ops);
    var t' := Extend(t, CollectOp(s));
    assert t'.current == t.current + [t'.current[|t.current|]];
  }

  /** Reference definition of the current activity after a run of pings:
      the activity of the last CREATE or RESUME ping, or `start` when there is
      none. */
  function LastMoved(start: Option<Screen>, ops: seq<Op>): Option<Screen>
    decreases |ops|
  {
    if ops == [] then start
    else if ops[|ops| - 1].PingOp? && (ops[|ops| - 1].phase == CREATE || ops[|ops| - 1].phase == RESUME)
    then Some(ops[|ops| - 1].activity)
    else LastMoved(start, ops[..|ops| - 1])
  }

  /** No step collects an activity, and every ping is of an activity the
      collector has not reclaimed. Listeners may come and go. */
  ghost predicate LiveRun(ops: seq<Op>, reclaimed: set<Screen>)
  {
    forall i :: 0 <= i < |ops| ==> !ops[i].CollectOp? && (ops[i].PingOp? ==> ops[i].activity !in reclaimed)
  }

  /** Reference definition of what a run writes to `_activitiesState`: the
      event of each ping, in order. */
  function Pinged(ops: seq<Op>): seq<ActivityAndState>
    decreases |ops|
  {
    if ops == [] then []
    else
      var op := ops[|ops| - 1];
      Pinged(ops[..|ops| - 1]) + (if op.PingOp? then [Record(op.activity, op.phase)] else [])
  }

  lemma PingedStep(ops: seq<Op>, op: Op)
    ensures Pinged(ops + [op]) == Pinged(ops) + (if op.PingOp? then [Record(op.activity, op.phase)] else [])
  {
    assert (ops + [op])[..|ops|] == ops;
  }

  /** Whatever the steps, a run writes to `_activitiesState` exactly the
      events of its pings, in order. */
  lemma {:induction false} RunWritesPinged(p: Provider, reclaimed: set<Screen>, ops: seq<Op>)
    ensures Run(p, reclaimed, ops).emitted == Pinged(ops)
    decreases |ops|
  {
    if ops != [] {
      var init, op := ops[..|ops| - 1], ops[|ops| - 1];
      assert ops == init + [op];
      RunWritesPinged(p, reclaimed, init);
      PingedStep(init, op);
    }
  }

  /** When every step is a ping, each step writes its own event. */
  lemma {:induction false} PingedOfPings(ops: seq<Op>)
    requires forall i :: 0 <= i < |ops| ==> ops[i].PingOp?
    ensures |Pinged(ops)| == |ops|
    ensures forall i :: 0 <= i < |ops| ==> Pinged(ops)[i] == Record(ops[i].activity, ops[i].phase)
    decreases |ops|
  {
    if ops != [] {
      var init, op := ops[..|ops| - 1], ops[|ops| - 1];
      assert ops == init + [op];
      assert forall i :: 0 <= i < |init| ==> init[i] == ops[i];
      PingedOfPings(init);
      PingedStep(init, op);
    }
  }

  lemma LastMovedStep(start: Option<Screen>, ops: seq<Op>, op: Op)
    ensures LastMoved(start, ops + [op])
         == if op.PingOp? && (op.phase == CREATE || op.phase == RESUME) then Some(op.activity) else LastMoved(start, ops)
  {
    assert (ops + [op])[..|ops|] == ops;
  }

  /** For every run, collections included, `_currentActivity` refers to the
      activity of the last CREATE or RESUME ping, or is the starting
      reference when there was none; the getter resolves it against what the
      collector has reclaimed. */
  lemma {:induction false} RunStoredRef(p: Provider, reclaimed: set<Screen>, ops: seq<Op>)
    ensures Run(p, reclaimed, ops).provider.currentActivityRef
         == if LastMoved(None, ops).Some? then WeakRef(LastMoved(None, ops)) else p.currentActivityRef
    decreases |ops|
  {
    if ops != [] {
      var init, op := ops[..|ops| - 1], ops[|ops| - 1];
      assert ops == init + [op];
      RunStoredRef(p, reclaimed, init);
      LastMovedStep(None, init, op);
      var t := Run(p, reclaimed, init);
      match op
      case PingOp(phase, s) =>
        RunPingStep(p, reclaimed, init, phase, s);
        if phase == CREATE || phase == RESUME {
          PingStoresRef(t.provider, phase, s, t.reclaimed);
        }
      case CollectOp(_) =>
        RunStep(p, reclaimed, init, op);
      case _ =>
        RunStep(p, reclaimed, init, op);
        ClientStep(t, op);
    }
  }

  /** One more step of a live run: nothing is collected, a ping writes its
      event and moves the current activity at CREATE and RESUME, and an add or
      remove leaves the current activity where it was. */
  lemma LiveStep(p: Provider, reclaimed: set<Screen>, ops: seq<Op>, op: Op)
    requires !op.CollectOp? && (op.PingOp? ==> op.activity !in Run(p, reclaimed, ops).reclaimed)
    ensures
      var t := Run(p, reclaimed, ops);
      var t' := Run(p, reclaimed, ops + [op]);
      && t'.reclaimed == t.reclaimed
      && t'.emitted == t.emitted + (if op.PingOp? then [Record(op.activity, op.phase)] else [])
      && t'.current == t.current + [CurrentActivity(t'.provider, t.reclaimed)]
      && CurrentActivity(t'.provider, t.reclaimed)
         == if op.PingOp? && (op.phase == CREATE || op.phase == RESUME) then Some(op.activity)
            else CurrentActivity(t.provider, t.reclaimed)
  {
    if op.PingOp? {
      CurrentAfterPing(p, reclaimed, ops, op.phase, op.activity);
    } else {
      RunStep(p, reclaimed, ops, op);
      ClientStep(Run(p, reclaimed, ops), op);
    }
  }

  /** The per-step facts of `PingRunCurrent` carry over to one more step. */
  lemma LastMovedPrefixes(start: Option<Screen>, init: seq<Op>, op: Op, current: seq<Option<Screen>>)
    requires |current| == |init|
    requires forall i :: 0 <= i < |init| ==> current[i] == LastMoved(start, init[..i + 1])
    ensures
      var ops := init + [op];
      var current' := current + [LastMoved(start, ops)];
      forall i :: 0 <= i < |ops| ==> current'[i] == LastMoved(start, ops[..i + 1])
  {
    var ops := init + [op];
    var current' := current + [LastMoved(start, ops)];
    forall i | 0 <= i < |init| ensures ops[..i + 1] == init[..i + 1] && current'[i] == current[i] {
    }
    assert ops[..|init| + 1] == ops;
  }

  /** A run without collections, whose pings are of live activities, writes
      exactly the pinged events in order, and after every step the current
      activity is the one the reference definition `LastMoved` names. */
  lemma {:induction false} PingRunCurrent(p: Provider, reclaimed: set<Screen>, ops: seq<Op>)
    requires LiveRun(ops, reclaimed)
    ensures
      var t := Run(p, reclaimed, ops);
      && t.reclaimed == reclaimed
      && t.emitted == Pinged(ops)
      && CurrentActivity(t.provider, reclaimed) == LastMoved(CurrentActivity(p, reclaimed), ops)
      && (forall i :: 0 <= i < |ops| ==> t.current[i] == LastMoved(CurrentActivity(p, reclaimed), ops[..i + 1]))
    decreases |ops|
  {
    if ops != [] {
      var init, op := ops[..|ops| - 1], ops[|ops| - 1];
      assert ops == init + [op];
      assert LiveRun(init, reclaimed) by {
        forall i | 0 <= i < |init| ensures init[i] == ops[i] {
        }
      }
      var start := CurrentActivity(p, reclaimed);
      PingRunCurrent(p, reclaimed, init);
      var t, t' := Run(p, reclaimed, init), Run(p, reclaimed, ops);
      assert t'.reclaimed == reclaimed && t'.current == t.current + [LastMoved(start, ops)]
          && t'.emitted == Pinged(ops)
          && CurrentActivity(t'.provider, reclaimed) == LastMoved(start, ops) by {
        LiveStep(p, reclaimed, init, op);
        RunWritesPinged(p, reclaimed, ops);
        LastMovedStep(start, init, op);
      }
      LastMovedPrefixes(start, init, op, t.current);
    }
  }
}

=== FILE: scenarios.dfy ===
/**
  Scenarios of the provider and of `listenActivityChanged()`, stated for any
  activities and listeners that fit the scenario.
*/
module Scenarios {
  import opened LifecycleTypes
  import opened ActivityProvider
  import opened ProviderTrace
  import opened ActivityChanged

  function Resumed(s: Screen): Option<ActivityAndState>
  {
    Some(Record(s, RESUME))
  }

  /** Nothing recorded, nothing reported. */
  lemma EmptyHistory()
    ensures ListenActivityChanged([]) == [] && LastResumedName([]) == None
  {
  }

  /** Resuming the same activity twice in a row is reported once. */
  lemma RepeatedResumeReportedOnce(a: Screen)
    ensures ListenActivityChanged([Resumed(a), Resumed(a)]) == [Resumed(a)]
  {
    var ra := Resumed(a);
    assert ListenActivityChanged([ra]) == [ra] && LastResumedName([ra]) == Some(a.text) by {
      EmptyHistory();
      ListenActivityChangedFrom([], ra, [], None);
      assert [] + [ra] == [ra];
    }
    assert ListenActivityChanged([ra, ra]) == [ra] by {
      ListenActivityChangedFrom([ra], ra, [ra], Some(a.text));
      assert [ra] + [ra] == [ra, ra];
    }
  }

  /** The same after a CREATE of that activity: the CREATE is not reported. */
  lemma CreateThenRepeatedResumeReportedOnce(a: Screen)
    ensures ListenActivityChanged([Some(Record(a, CREATE)), Resumed(a), Resumed(a)]) == [Resumed(a)]
  {
    var ra, ca := Resumed(a), Some(Record(a, CREATE));
    assert ListenActivityChanged([ca]) == [] && LastResumedName([ca]) == None by {
      EmptyHistory();
      ListenActivityChangedFrom([], ca, [], None);
      assert [] + [ca] == [ca];
    }
    assert ListenActivityChanged([ca, ra]) == [ra] && LastResumedName([ca, ra]) == Some(a.text) by {
      ListenActivityChangedFrom([ca], ra, [], None);
      assert [ca] + [ra] == [ca, ra];
    }
    assert ListenActivityChanged([ca, ra, ra]) == [ra] by {
      ListenActivityChangedFrom([ca, ra], ra, [ra], Some(a.text));
      assert [ca, ra] + [ra] == [ca, ra, ra];
    }
  }

  /** Only consecutive repeats are dropped. */
  lemma AlternatingResumesAllReported(a: Screen, b: Screen)
    requires a.text != b.text
    ensures ListenActivityChanged([Resumed(a), Resumed(b), Resumed(a)]) == [Resumed(a), Resumed(b), Resumed(a)]
  {
    var ra, rb := Resumed(a), Resumed(b);
    assert ListenActivityChanged([ra]) == [ra] && LastResumedName([ra]) == Some(a.text) by {
      EmptyHistory();
      ListenActivityChangedFrom([], ra, [], None);
      assert [] + [ra] == [ra];
    }
    assert ListenActivityChanged([ra, rb]) == [ra, rb] && LastResumedName([ra, rb]) == Some(b.text) by {
      ListenActivityChangedFrom([ra], rb, [ra], Some(a.text));
      assert [ra] + [rb] == [ra, rb];
    }
    assert ListenActivityChanged([ra, rb, ra]) == [ra, rb, ra] by {
      ListenActivityChangedFrom([ra, rb], ra, [ra, rb], Some(b.text));
      assert [ra, rb] + [ra] == [ra, rb, ra];
    }
  }

  /** Repeats are judged by name: a different activity object whose
      `toString()` equals the previous one's is not reported. */
  lemma SameNameDifferentObjectDropped(a: Screen, b: Screen)
    requires a != b && a.text == b.text
    ensures ListenActivityChanged([Resumed(a), Resumed(b)]) == [Resumed(a)]
  {
    var ra, rb := Resumed(a), Resumed(b);
    assert ListenActivityChanged([ra]) == [ra] && LastResumedName([ra]) == Some(a.text) by {
      EmptyHistory();
      ListenActivityChangedFrom([], ra, [], None);
      assert [] + [ra] == [ra];
    }
    assert ListenActivityChanged([ra, rb]) == [ra] by {
      ListenActivityChangedFrom([ra], rb, [ra], Some(a.text));
      assert [ra] + [rb] == [ra, rb];
    }
  }

  /** A CREATE moves the current activity; the phases other than CREATE and
      RESUME leave it where it is. Stated for `a` pinged through a whole
      lifecycle and then `b` created and resumed. */
  lemma TwoActivityLifecycle(a: Screen, b: Screen, ops: seq<Op>)
    requires ops == [PingOp(CREATE, a), PingOp(START, a), PingOp(RESUME, a), PingOp(PAUSE, a),
                     PingOp(CREATE, b), PingOp(RESUME, b)]
    ensures Run(Initial, {}, ops).current == [Some(a), Some(a), Some(a), Some(a), Some(b), Some(b)]
    ensures Run(Initial, {}, ops).provider.activitiesState == Resumed(b)
    ensures Run(Initial, {}, ops).emitted
         == [Record(a, CREATE), Record(a, START), Record(a, RESUME), Record(a, PAUSE), Record(b, CREATE), Record(b, RESUME)]
  {
    LifecycleCurrent(a, b, ops);
    LifecycleEmitted(a, b, ops);
  }

  lemma LifecycleCurrent(a: Screen, b: Screen, ops: seq<Op>)
    requires ops == [PingOp(CREATE, a), PingOp(START, a), PingOp(RESUME, a), PingOp(PAUSE, a),
                     PingOp(CREATE, b), PingOp(RESUME, b)]
    ensures Run(Initial, {}, ops).current == [Some(a), Some(a), Some(a), Some(a), Some(b), Some(b)]
  {
    assert LiveRun(ops, {});
    PingRunCurrent(Initial, {}, ops);
    LifecycleMoves(a, b, ops);
    SixElements(Run(Initial, {}, ops).current, Some(a), Some(a), Some(a), Some(a), Some(b), Some(b));
  }

  lemma LifecycleEmitted(a: Screen, b: Screen, ops: seq<Op>)
    requires ops == [PingOp(CREATE, a), PingOp(START, a), PingOp(RESUME, a), PingOp(PAUSE, a),
                     PingOp(CREATE, b), PingOp(RESUME, b)]
    ensures Run(Initial, {}, ops).emitted
         == [Record(a, CREATE), Record(a, START), Record(a, RESUME), Record(a, PAUSE), Record(b, CREATE), Record(b, RESUME)]
  {
    var e := Pinged(ops);
    assert |e| == 6 && forall i :: 0 <= i < 6 ==> e[i] == Record(ops[i].activity, ops[i].phase) by {
      PingedOfPings(ops);
    }
    RunWritesPinged(Initial, {}, ops);
    SixElements(Run(Initial, {}, ops).emitted, Record(a, CREATE), Record(a, START), Record(a, RESUME), Record(a, PAUSE),
                Record(b, CREATE), Record(b, RESUME));
  }

  /** The reference definition applied to each prefix of that lifecycle. */
  lemma LifecycleMoves(a: Screen, b: Screen, ops: seq<Op>)
    requires ops == [PingOp(CREATE, a), PingOp(START, a), PingOp(RESUME, a), PingOp(PAUSE, a),
                     PingOp(CREATE, b), PingOp(RESUME, b)]
    ensures LastMoved(None, ops[..1]) == Some(a) && LastMoved(None, ops[..2]) == Some(a)
    ensures LastMoved(None, ops[..3]) == Some(a) && LastMoved(None, ops[..4]) == Some(a)
    ensures LastMoved(None, ops[..5]) == Some(b) && LastMoved(None, ops[..6]) == Some(b)
  {
    var none: Option<Screen> := None;
    assert LastMoved(none, ops[..1]) == Some(a) by {
      LastMovedStep(none, [], PingOp(CREATE, a));
      assert ops[..1] == [] + [PingOp(CREATE, a)];
    }
    assert LastMoved(none, ops[..2]) == Some(a) by {
      LastMovedStep(none, ops[..1], PingOp(START, a));
      assert ops[..2] == ops[..1] + [PingOp(START, a)];
    }
    assert LastMoved(none, ops[..3]) == Some(a) by {
      LastMovedStep(none, ops[..2], PingOp(RESUME, a));
      assert ops[..3] == ops[..2] + [PingOp(RESUME, a)];
    }
    assert LastMoved(none, ops[..4]) == Some(a) by {
      LastMovedStep(none, ops[..3], PingOp(PAUSE, a));
      assert ops[..4] == ops[..3] + [PingOp(PAUSE, a)];
    }
    assert LastMoved(none, ops[..5]) == Some(b) by {
      LastMovedStep(none, ops[..4], PingOp(CREATE, b));
      assert ops[..5] == ops[..4] + [PingOp(CREATE, b)];
    }
    assert LastMoved(none, ops[..6]) == Some(b) by {
      LastMovedStep(none, ops[..5], PingOp(RESUME, b));
      assert ops[..6] == ops[..5] + [PingOp(RESUME, b)];
    }
  }

  /** A sequence of six known elements is that display. */
  lemma SixElements<T>(c: seq<T>, x0: T, x1: T, x2: T, x3: T, x4: T, x5: T)
    requires |c| == 6
    requires c[0] == x0 && c[1] == x1 && c[2] == x2 && c[3] == x3 && c[4] == x4 && c[5] == x5
    ensures c == [x0, x1, x2, x3, x4, x5]
  {
  }

  /** Once the current activity is reclaimed, there is no current activity. */
  lemma ReclaimedActivityIsNotCurrent(a: Screen)
    ensures Run(Initial, {}, [PingOp(CREATE, a), CollectOp(a)]).current == [Some(a), None]
  {
    var o1 := [PingOp(CREATE, a)];
    assert Run(Initial, {}, o1).current == [Some(a)]
        && CurrentActivity(Run(Initial, {}, o1).provider, Run(Initial, {}, o1).reclaimed) == Some(a) by {
      assert Run(Initial, {}, []).current == [];
      CurrentAfterPing(Initial, {}, [], CREATE, a);
      assert [] + o1 == o1;
    }
    CurrentAfterCollect(Initial, {}, o1, a);
    assert o1 + [CollectOp(a)] == [PingOp(CREATE, a), CollectOp(a)];
  }

  /** A registered listener receives one call per ping of its phase and,
      once removed, none. */
  lemma ListenerAddedThenRemoved(l: Listener, a: Screen, b: Screen)
    ensures
      var added := AddListener(Initial, CREATE, l);
      var first := Ping(added, CREATE, a, {});
      var removed := RemoveListener(first.provider, CREATE, l);
      && first.calls == [Call(l, CREATE, a, Some(a), Some(Record(a, CREATE)))]
      && Ping(removed, CREATE, b, {}).calls == []
  {
    var added := AddListener(Initial, CREATE, l);
    var first := Ping(added, CREATE, a, {});
    assert Recipients(first.calls) == [l] && first.calls[0] in first.calls;
    RemoveListenerDeletesFirst(first.provider, CREATE, l, [], []);
    assert Listeners(first.provider, CREATE) == [] + [l] + [];
  }

  /** Adding a listener twice gets it called twice. */
  lemma DuplicateRegistrationCalledTwice(l: Listener, a: Screen)
    ensures Recipients(Ping(AddListener(AddListener(Initial, RESUME, l), RESUME, l), RESUME, a, {}).calls) == [l, l]
  {
  }

}
